=== FILE: README.md ===
# CARLA no-rendering-mode visualiser: verified model of its logic

The visualiser (`PythonAPI/no_rendering_mode.py`) draws a top-down 2D view of a
live CARLA simulation with pygame. Under the drawing code sits a small amount
of deterministic logic, and this project models that logic in Dafny and proves
properties of it:

- **World-to-screen transform** (`TransformHelper`), in `transform.dfy`. Each
  axis of the map bounding box is mapped linearly onto a square canvas of
  `map_size` pixels. The result is truncated toward zero, as Python's `int()`
  does (`Basics.Trunc`). A zero-width axis makes every conversion divide by
  zero, and the model returns `None` there. The vehicle glyph size is clamped
  to at least 1×1.
- **Map bounding box** (`_compute_map_bounding_box`), in `bounding_box.dfy`. It
  is a min/max fold over the waypoint locations. The minima start at +infinity
  and the maxima start at 0.
- **Actor classifier** (`_splitActors`), in `actors.dfy`. The first substring
  match on `type_id`, in the order vehicle, traffic_light, speed_limit, walker,
  decides an actor's list. Each list keeps the input order.
- **Hero mode** (`is_actor_inside_hero_radius`, the filtering and translation
  offset in `ModuleWorld.render`), in `hero_mode.dfy`. The inclusive
  radius-50 culling is stated as squared distance ≤ r². Follow mode centres
  the hero; free mode adds the mouse pan.
- **Module registry** (`ModuleManager`), in `module_manager.dfy`. It supports
  append, clear, dispatch in registration order and first-match lookup by
  name. Each module's `start`/`tick`/`render` lies outside the registry, so
  the dispatch loops return the ordered list of calls they make.
- **HUD info table** (`ModuleHUD.add_info`), in `hud.dfy`. It overwrites by
  module name. The table is an ordered association list that keeps keys in
  first-insertion order, which is how a Python 3.7+ dictionary iterates and
  so the order in which the HUD draws the entries.
- **Camera input** (`ModuleInput`), in `input.dfy`. The wheel changes a
  stored zoom factor, `wheel_offset`, in steps of 0.1, with a floor of 0.1
  after a scroll-down. Nothing reads that factor: the only scaling that used
  it is commented out (lines 754-759), so the wheel does not change the
  view. A drag with the left button held accumulates pointer deltas. The
  event queue, button state and pointer position are parameters. Key presses
  that change other modules become returned requests.

World coordinates are Dafny `real`s. Python floats are not modelled: every
computation here is exact. `/` is Python 3 true division.

Some behaviour of the code a reader might not expect, which the model keeps:

- Follow mode has no fallback to free mode. The code indexes the hero among
  the culled vehicles. `HeroMode.HeroIsAlwaysDrawn` proves that lookup cannot
  miss.
- A degenerate bounding box fails at each conversion, not when the transform
  is built.
- Free mode centres the canvas horizontally only. The vertical offset is the
  pan alone.

## Model

| member | source | states |
|---|---|---|
| `Basics.Trunc` | PythonAPI/no_rendering_mode.py:103-104 | `int()` of a float: the integer part, rounding toward zero. For v ≥ 0, r ≤ v < r+1. For v < 0, r−1 < v ≤ r. |
| `Transform.ToScreenPoint` | PythonAPI/no_rendering_mode.py:102-104 | The conversion fails (ZeroDivisionError) exactly when an axis of the box has zero width. |
| `Transform.ToScreenSize` | PythonAPI/no_rendering_mode.py:106-108 | The size conversion fails exactly when an axis has zero width. |
| `Transform.PointIsTranslatedSize` | PythonAPI/no_rendering_mode.py:102-108 | A point converts as its offset from the box minimum converted as a size, so the size variant is the point variant without translation. |
| `Transform.MinMapsToOrigin` | PythonAPI/no_rendering_mode.py:102-104 | `convert_world_to_screen_point(min_map_point) == (0, 0)`. |
| `Transform.MaxMapsToCorner` | PythonAPI/no_rendering_mode.py:102-104 | `convert_world_to_screen_point(max_map_point) == (map_size, map_size)`. |
| `Transform.InsideBoxMapsIntoCanvas` | PythonAPI/no_rendering_mode.py:102-104 | Every point inside the bounding box maps into `[0, map_size]²`. |
| `Transform.ToScreenPointMonotone` | PythonAPI/no_rendering_mode.py:102-104 | The transform keeps the order of points on each axis. |
| `Transform.ZeroSizeMapsToZero` | PythonAPI/no_rendering_mode.py:106-108 | A zero size converts to `(0, 0)`, since the size variant has no translation term. |
| `Transform.ToScreenSizeOdd` | PythonAPI/no_rendering_mode.py:106-108 | Negating a size negates its pixel size, because `int()` truncates toward zero. |
| `Transform.VehicleSurfaceSize` | PythonAPI/no_rendering_mode.py:123-132 | Each side is `max(converted doubled extent, 1)`: the converted side when it is at least 1, exactly 1 otherwise. |
| `Transform.ZeroExtentGlyphIsOnePixel` | PythonAPI/no_rendering_mode.py:125-132 | A zero-extent vehicle gets a 1×1 glyph. |
| `Transform.CentreScenario` | PythonAPI/no_rendering_mode.py:102-104 | With box (0,0)–(1000,1000) and canvas 800, the point (500,500) maps to (400,400). |
| `BoundingBox.MinWith` | PythonAPI/no_rendering_mode.py:552-555 | `min(b, v)` with `b` possibly +inf: the result is finite, at most `v` and at most a finite `b`, and equal to one of them. |
| `BoundingBox.MaxWith` | PythonAPI/no_rendering_mode.py:551-554 | `max(m, v)`: at least both arguments and equal to one of them. |
| `BoundingBox.ComputeMapBoundingBox` | PythonAPI/no_rendering_mode.py:543-557 | Every waypoint lies inside the box. Each minimum is attained, and is infinite exactly when there are no waypoints. Each maximum is ≥ 0 (zero seed) and is attained unless it is that seed. |
| `Actors.ContainsIff` | PythonAPI/no_rendering_mode.py:710-716 | `sub in s` holds exactly when `sub` occurs at some position of `s`. |
| `Actors.Classify` | PythonAPI/no_rendering_mode.py:709-717 | A category is only assigned when the `type_id` contains its tag; `ClassifyIsFirstMatch` pins it to the first matching tag of the if/elif chain. |
| `Actors.ClassifyIsFirstMatch` | PythonAPI/no_rendering_mode.py:709-717 | An actor gets category k iff its `type_id` contains k's tag and no earlier tag. It is dropped iff it contains none of the four tags. |
| `Actors.SplitActors` | PythonAPI/no_rendering_mode.py:703-719 | The loop returns exactly the four order-preserving category selections of the input. |
| `Actors.Select` | PythonAPI/no_rendering_mode.py:709-717 | One category's list: never longer than the input, and holding only input actors of that category (the converse is `SelectMember`, the order `SelectIsSubsequence`). |
| `Actors.Split` | PythonAPI/no_rendering_mode.py:703-719 | The four lists together never hold more actors than the input (`SplitCountsEveryActor` gives the exact count with dropped actors). |
| `Actors.SelectMember` | PythonAPI/no_rendering_mode.py:709-717 | An actor is in the list for category c iff it is in the input and classified c. |
| `Actors.SelectIsSubsequence` | PythonAPI/no_rendering_mode.py:709-717 | Each output list is a subsequence of the input, so input order is kept. |
| `Actors.SplitCountsEveryActor` | PythonAPI/no_rendering_mode.py:709-719 | The four list lengths plus the number of dropped actors equal the input length. |
| `Actors.SplitIsPartition` | PythonAPI/no_rendering_mode.py:703-719 | The four lists are pairwise disjoint. Every actor with a known tag is in one of them. |
| `HeroMode.InsideHeroRadiusIsDistanceTest` | PythonAPI/no_rendering_mode.py:699-701 | The squared test agrees with `sqrt(dx²+dy²) <= filter_radius` for every radius. The boundary is included. |
| `HeroMode.InsideHeroRadius` | PythonAPI/no_rendering_mode.py:699-701 | Nothing is inside a negative radius, and an actor at the hero's location is inside every non-negative radius; `InsideHeroRadiusIsDistanceTest` equates it with the `sqrt` test. |
| `HeroMode.CullToHero` | PythonAPI/no_rendering_mode.py:734-741 | A culling comprehension keeps only listed actors inside the radius and never lengthens the list (`CullToHeroMember` gives the converse). |
| `HeroMode.CullToHeroMember` | PythonAPI/no_rendering_mode.py:734-741 | An actor survives the comprehension iff it is in the list and inside the hero radius. |
| `HeroMode.VisibleGroups` | PythonAPI/no_rendering_mode.py:732-741 | Culling only removes actors from the three filtered lists, and without a hero the groups are exactly `_splitActors`' lists (`VisibleGroupsMember` gives membership). |
| `HeroMode.VisibleGroupsMember` | PythonAPI/no_rendering_mode.py:732-741 | With a hero, a vehicle, traffic light or speed limit is drawn iff it has that category and is within the radius. Walkers are never filtered. Without a hero nothing is filtered. |
| `HeroMode.HeroCandidates` | PythonAPI/no_rendering_mode.py:620-621 | The candidates are input actors whose `type_id` contains `vehicle` (`HeroCandidatesAreVehicles` equates them with the vehicle list). |
| `HeroMode.HeroCandidatesAreVehicles` | PythonAPI/no_rendering_mode.py:620-621 | The hero candidates (`'vehicle' in type_id`) are exactly the classifier's vehicle list. |
| `HeroMode.HeroIsAlwaysDrawn` | PythonAPI/no_rendering_mode.py:779-781 | A hero from the candidates is among the culled vehicles, so the lookup by id and `[0]` never fail. |
| `HeroMode.TranslationOffset` | PythonAPI/no_rendering_mode.py:761-769 | The offset is missing only in follow mode with a degenerate transform. |
| `HeroMode.FollowModeCentresHero` | PythonAPI/no_rendering_mode.py:765-769 | Follow mode: `translation_offset + hero_screen_point == (width/2, height/2)` exactly. |
| `HeroMode.FollowModeIgnoresPan` | PythonAPI/no_rendering_mode.py:762-769 | Follow mode's offset does not depend on the mouse pan. |
| `HeroMode.FreeModeIsCentredCanvasPlusPan` | PythonAPI/no_rendering_mode.py:762-764 | Free mode: with no pan the canvas is centred horizontally and at the top. Panning shifts the offset by exactly the pan. |
| `ModuleRegistry.Lookup` | PythonAPI/no_rendering_mode.py:262-265 | A found module is registered and carries the requested name (`LookupIsFirstMatch` makes it the first such, and None only when there is none). |
| `ModuleRegistry.LookupIsFirstMatch` | PythonAPI/no_rendering_mode.py:262-265 | Lookup finds the lowest-index module with that name. It yields None iff no module has that name. |
| `ModuleRegistry.LookupAfterRegister` | PythonAPI/no_rendering_mode.py:246-265 | Registering never changes what an already-registered name resolves to. A new name then resolves to the new module. |
| `ModuleRegistry.ModuleManager.constructor` | PythonAPI/no_rendering_mode.py:243-244 | The registry starts empty. |
| `ModuleRegistry.ModuleManager.RegisterModule` | PythonAPI/no_rendering_mode.py:246-247 | Appends: new registry = old registry + [module]. |
| `ModuleRegistry.ModuleManager.ClearModules` | PythonAPI/no_rendering_mode.py:249-250 | The registry is empty afterwards. |
| `ModuleRegistry.ModuleManager.TickModules` | PythonAPI/no_rendering_mode.py:252-255 | Exactly one tick call per module, in registration order, when every callback returns. |
| `ModuleRegistry.ModuleManager.RenderModules` | PythonAPI/no_rendering_mode.py:257-260 | The display is cleared first. Then exactly one render call per module, in registration order, when every callback returns. |
| `ModuleRegistry.ModuleManager.StartModules` | PythonAPI/no_rendering_mode.py:267-269 | Exactly one start call per module, in registration order, when every callback returns. |
| `ModuleRegistry.ModuleManager.GetModule` | PythonAPI/no_rendering_mode.py:262-265 | The early-return loop yields the first module with that name, or None (`LookupIsFirstMatch`). |
| `Hud.Get` | PythonAPI/no_rendering_mode.py:438-439 | Reading the table: None exactly when the name is not a key; otherwise the value stored under that name. |
| `Hud.Put` | PythonAPI/no_rendering_mode.py:438-439 | `_info_text[name] = info`: the new entry is in the table, which grows by at most one entry (`KeysAfterPut`: only for a new key). |
| `Hud.GetPutSame` | PythonAPI/no_rendering_mode.py:438-439 | After `add_info(name, info)`, the entry for `name` is `info`. |
| `Hud.GetPutOther` | PythonAPI/no_rendering_mode.py:438-439 | `add_info(name, info)` leaves every other module's entry unchanged. |
| `Hud.KeysAfterPut` | PythonAPI/no_rendering_mode.py:438-439 | Overwriting keeps a key's position. A new key is appended, so the HUD keeps each module's first-report order. |
| `Hud.PutKeepsKeysUnique` | PythonAPI/no_rendering_mode.py:438-439 | The table never holds a module name twice. |
| `Hud.ModuleHud.constructor` | PythonAPI/no_rendering_mode.py:407-427 | `dim` is (width, height), info is shown, and the table is empty. |
| `Hud.ModuleHud.AddInfo` | PythonAPI/no_rendering_mode.py:438-439 | Overwrite-by-name update: that entry becomes `info`, the others are unchanged, and keys stay unique. |
| `Input.ScrollUp` | PythonAPI/no_rendering_mode.py:832-834 | A scroll-up strictly raises a zoom component; `ScrollUpEventAddsWheelAmount` and the two undo lemmas pin it to `+ wheel_amount`. |
| `Input.ScrollDown` | PythonAPI/no_rendering_mode.py:836-842 | A scroll-down gives exactly `max(w − 0.1, 0.1)`: never below the floor, never below one step down, and equal to one of the two. |
| `Input.ScrollDownUndoesScrollUp` | PythonAPI/no_rendering_mode.py:832-842 | Scroll-up then scroll-down restores any zoom at or above the floor. |
| `Input.ScrollUpUndoesScrollDown` | PythonAPI/no_rendering_mode.py:832-842 | Scroll-down then scroll-up restores the zoom iff the zoom was at least 0.2. |
| `Input.ScrollDownEventFloors` | PythonAPI/no_rendering_mode.py:836-842 | After a button-5 event both `wheel_offset` components are ≥ 0.1, from any state. |
| `Input.ScrollUpEventAddsWheelAmount` | PythonAPI/no_rendering_mode.py:832-834 | A button-4 event adds exactly `wheel_amount` to both components. |
| `Input.ApplyEvent` | PythonAPI/no_rendering_mode.py:811-842 | Only a button press changes the state: it sets `mouse_pos` to the pointer, button 5 gives each zoom component `max(w − 0.1, 0.1)`, and buttons other than 4 and 5 leave the zoom alone. No event changes the pan, and the zoom invariant (components equal and ≥ 0.1) is kept. |
| `Input.EventRequest` | PythonAPI/no_rendering_mode.py:812-828 | An event asks to exit exactly when it is a quit or an Escape key-up; mouse and other events ask nothing. |
| `Input.ApplyEvents` | PythonAPI/no_rendering_mode.py:810-842 | Handling an event queue never changes the pan. |
| `Input.Requests` | PythonAPI/no_rendering_mode.py:810-828 | At most one request per event, and an exit request can only be the last one: handling stops there. |
| `Input.RequestsExitIff` | PythonAPI/no_rendering_mode.py:810-816 | The queue yields the exit request exactly when it holds a quit event or an Escape key-up, the two paths to `exit_game()`. |
| `Input.ApplyEventsKeepsZoomValid` | PythonAPI/no_rendering_mode.py:810-842 | No event sequence takes the zoom below 0.1 or makes its two components differ. |
| `Input.Drag` | PythonAPI/no_rendering_mode.py:849-854 | A mouse frame never changes the zoom, and a frame without the left button changes nothing; `DragPansByTotalMovement` gives the pan over consecutive held frames. |
| `Input.DragPansByTotalMovement` | PythonAPI/no_rendering_mode.py:849-854 | Over consecutive held frames the pan grows by exactly (last pointer − first `mouse_pos`). `mouse_pos` ends at the last pointer and the zoom is untouched. |
| `Input.ModuleInput.constructor` | PythonAPI/no_rendering_mode.py:794-799 | Pointer at (0,0), pan (0,0), zoom (1,1). The zoom invariant holds. |
| `Input.ModuleInput.HandleEvent` | PythonAPI/no_rendering_mode.py:811-842 | One event updates the fields as `ApplyEvent` says and makes the request `EventRequest` says. |
| `Input.ModuleInput.ParseEvents` | PythonAPI/no_rendering_mode.py:810-842 | Events are handled in order and handling stops at the first quit or Escape. The zoom invariant is kept. |
| `Input.ModuleInput.ParseMouse` | PythonAPI/no_rendering_mode.py:849-854 | With the left button held, the pan gains the pointer delta and `mouse_pos` becomes the pointer. Otherwise nothing changes. |
| `Input.ModuleInput.ParseInput` | PythonAPI/no_rendering_mode.py:856-859 | Events first, then the mouse, unless an exit was requested. |

## Left out

- All pygame drawing: surfaces, fills, blits, `pygame.transform.rotate`, lines and anti-aliased lines, circles, `Legend`, the HUD text and bar layout, `renderActorId` and the hero circle. Their only result is pixels.
- The static map layer (`start`, lines 580-607). It needs the waypoint forward offset computed with `cos`/`sin`. Its output goes only to drawing.
- Floating point. Reals are exact, so rounding in `/`, `*` and repeated `±0.1` is not captured. The HUD bar fraction and the hero speed `sqrt` are left out as well.
- The CARLA client (`_get_data_from_carla`), `generate_waypoints`, the `on_world_tick` weak-reference callback and the server FPS clock. These are foreign, asynchronous and clock-driven.
- `select_random_hero` makes a random choice. Only its candidate list is modelled (`HeroCandidates`). Its failure on an empty list is not modelled.
- The `K_h`, `K_a` and `K_i` key handlers change other modules' fields. `exit_game` clears the registry and exits. The model returns these as requests instead of performing them.
- The traffic-light colour mapping. It has no default colour in the code (lines 166-176), so an unrecognised state leaves `color` unbound.
- The empty `start`/`tick`/`render` bodies of the modules, which do nothing.
- The string formatting in `update_hud_info` and `ModuleRender.tick`. Both then submit their lines to the HUD with `add_info` (lines 297-298 and 649-650); that submission is modelled by `Hud.ModuleHud.AddInfo`.
- Argument parsing, `game_loop`, `exit_game` and `main`. These are command-line and process plumbing.
- ModuleRegistry.ModuleManager.TickModules, RenderModules and StartModules: the traces assume every callback returns. A callback can end the loop early: `ModuleInput.tick` can reach `exit_game()` (lines 905-908), which clears the registry and exits before later modules run.
- The registry stores module descriptors (name and kind), not object references. Aliasing between module objects is not captured.
- Actor locations are live in the source (`get_location()` on each call). The model takes one snapshot of every location per frame.
- A transform built from an empty waypoint list has an infinite minimum corner. The transform is modelled over finite reals only.
- Under Python 2, the `/ 2` in the translation offset would be integer floor division, and `_info_text.items()` (line 466) would iterate in arbitrary order. The model uses Python 3.7+ semantics for both.
- Hud.KeysAfterPut: the drawing order it states holds only for Python 3.7+ dictionaries; under Python 2 the order of the HUD entries is unspecified.
- Linearity of `convert_world_to_screen_size` under scaling is not stated, because truncation breaks it. Oddness and the zero case are proved instead.

=== FILE: actors.dfy ===
/**
 * The actor classifier (`ModuleWorld._splitActors`): each actor goes to the
 * first category whose tag is a substring of its `type_id`, tested in the
 * order vehicle, traffic_light, speed_limit, walker; an actor matching none is
 * dropped. Within each group the input order is kept.
 */
module Actors {
  import opened Basics

  /** A live actor as one frame sees it. */
  datatype Actor = Actor(id: int, typeId: string, location: Point)

  /** The four categories, in the order they are tested. */
  datatype Kind = Vehicle | TrafficLight | SpeedLimit | Walker

  /** The substring of `type_id` that selects each category. */
  function Tag(k: Kind): string
  {
    match k
    case Vehicle => "vehicle"
    case TrafficLight => "traffic_light"
    case SpeedLimit => "speed_limit"
    case Walker => "walker"
  }

  /** The position of a category in the test order. */
  function Rank(k: Kind): nat
  {
    match k
    case Vehicle => 0
    case TrafficLight => 1
    case SpeedLimit => 2
    case Walker => 3
  }

  /** Python's `sub in s` on strings. */
  function Contains(s: string, sub: string): bool
    decreases |s|
  {
    (|sub| <= |s| && s[..|sub|] == sub) || (|s| > 0 && Contains(s[1..], sub))
  }

  /** `sub` occurs in `s` starting at position `i`. */
  predicate OccursAt(s: string, sub: string, i: int)
  {
    0 <= i && i + |sub| <= |s| && s[i..i + |sub|] == sub
  }

  /** `Contains` holds exactly when `sub` occurs at some position of `s`. */
  lemma {:induction false} ContainsIff(s: string, sub: string)
    ensures Contains(s, sub) <==> exists i :: OccursAt(s, sub, i)
    decreases |s|
  {
    if |s| > 0 {
      ContainsIff(s[1..], sub);
      if Contains(s[1..], sub) {
        var i :| OccursAt(s[1..], sub, i);
        assert OccursAt(s, sub, i + 1);
      }
      if i :| OccursAt(s, sub, i) {
        if i > 0 {
          assert OccursAt(s[1..], sub, i - 1);
        }
      }
    }
    if |sub| <= |s| && s[..|sub|] == sub {
      assert OccursAt(s, sub, 0);
    }
  }

  /** The category of a `type_id`: the first branch of the if/elif chain that matches. */
  function Classify(typeId: string): (r: Option<Kind>)
    ensures r.Some? ==> Contains(typeId, Tag(r.value))
  {
    if Contains(typeId, "vehicle") then Some(Vehicle)
    else if Contains(typeId, "traffic_light") then Some(TrafficLight)
    else if Contains(typeId, "speed_limit") then Some(SpeedLimit)
    else if Contains(typeId, "walker") then Some(Walker)
    else None
  }

  /**
   * First match: an actor gets category `k` exactly when its `type_id` contains
   * `k`'s tag and no tag tested before it; it is dropped exactly when it
   * contains none of the four tags.
   */
  lemma ClassifyIsFirstMatch(typeId: string, k: Kind)
    ensures Classify(typeId) == Some(k) <==>
      Contains(typeId, Tag(k)) && forall j: Kind :: Rank(j) < Rank(k) ==> !Contains(typeId, Tag(j))
    ensures Classify(typeId) == None <==> forall j: Kind :: !Contains(typeId, Tag(j))
  {
    assert Tag(Vehicle) == "vehicle" && Tag(TrafficLight) == "traffic_light";
    assert Tag(SpeedLimit) == "speed_limit" && Tag(Walker) == "walker";
  }

  /** The actors of `actors` whose category is `c`, in input order (from the back). */
  function Select(actors: seq<Actor>, c: Option<Kind>): (r: seq<Actor>)
    ensures |r| <= |actors|
    ensures forall a :: a in r ==> a in actors && Classify(a.typeId) == c
  {
    if actors == [] then []
    else
      var last := actors[|actors| - 1];
      Select(actors[..|actors| - 1], c) + (if Classify(last.typeId) == c then [last] else [])
  }

  /** The four lists `_splitActors` returns. */
  datatype ActorGroups = ActorGroups(vehicles: seq<Actor>, trafficLights: seq<Actor>,
                                     speedLimits: seq<Actor>, walkers: seq<Actor>)

  /** The partition, as a function of the input. */
  function Split(actors: seq<Actor>): (r: ActorGroups)
    ensures |r.vehicles| + |r.trafficLights| + |r.speedLimits| + |r.walkers| <= |actors|
  {
    SplitCountsEveryActor(actors);
    ActorGroups(Select(actors, Some(Vehicle)), Select(actors, Some(TrafficLight)),
                Select(actors, Some(SpeedLimit)), Select(actors, Some(Walker)))
  }

  /**
   * `_splitActors`: one pass over the actors, appending each to the list of its
   * first matching category.
   */
  method SplitActors(actors: seq<Actor>)
    returns (vehicles: seq<Actor>, trafficLights: seq<Actor>, speedLimits: seq<Actor>, walkers: seq<Actor>)
    ensures ActorGroups(vehicles, trafficLights, speedLimits, walkers) == Split(actors)
  {
    vehicles, trafficLights, speedLimits, walkers := [], [], [], [];
    for i := 0 to |actors|
      invariant vehicles == Select(actors[..i], Some(Vehicle))
      invariant trafficLights == Select(actors[..i], Some(TrafficLight))
      invariant speedLimits == Select(actors[..i], Some(SpeedLimit))
      invariant walkers == Select(actors[..i], Some(Walker))
    {
      assert actors[..i + 1][..i] == actors[..i];
      var actor := actors[i];
      if Contains(actor.typeId, "vehicle") {
        vehicles := vehicles + [actor];
      } else if Contains(actor.typeId, "traffic_light") {
        trafficLights := trafficLights + [actor];
      } else if Contains(actor.typeId, "speed_limit") {
        speedLimits := speedLimits + [actor];
      } else if Contains(actor.typeId, "walker") {
        walkers := walkers + [actor];
      }
    }
    assert actors[..|actors|] == actors;
  }

  /** An actor is selected for `c` exactly when it is in the input with category `c`. */
  lemma {:induction false} SelectMember(actors: seq<Actor>, c: Option<Kind>, a: Actor)
    ensures a in Select(actors, c) <==> a in actors && Classify(a.typeId) == c
    decreases |actors|
  {
    if actors != [] {
      var init := actors[..|actors| - 1];
      SelectMember(init, c, a);
      assert actors == init + [actors[|actors| - 1]];
    }
  }

  /** `s` is `t` with some elements removed, the rest in the same order. */
  ghost predicate Subsequence(s: seq<Actor>, t: seq<Actor>)
    decreases |t|
  {
    if s == [] then true
    else if t == [] then false
    else
      (s[|s| - 1] == t[|t| - 1] && Subsequence(s[..|s| - 1], t[..|t| - 1]))
      || Subsequence(s, t[..|t| - 1])
  }

  /** Every group keeps the input order. */
  lemma {:induction false} SelectIsSubsequence(actors: seq<Actor>, c: Option<Kind>)
    ensures Subsequence(Select(actors, c), actors)
    decreases |actors|
  {
    if actors != [] {
      var init := actors[..|actors| - 1];
      var last := actors[|actors| - 1];
      SelectIsSubsequence(init, c);
      var s := Select(actors, c);
      if Classify(last.typeId) == c {
        assert s[..|s| - 1] == Select(init, c);
      } else if s != [] {
        assert s == Select(init, c);
      }
    }
  }

  /** The four groups and the dropped actors together account for every input actor. */
  lemma {:induction false} SplitCountsEveryActor(actors: seq<Actor>)
    ensures |Select(actors, Some(Vehicle))| + |Select(actors, Some(TrafficLight))|
          + |Select(actors, Some(SpeedLimit))| + |Select(actors, Some(Walker))|
          + |Select(actors, None)| == |actors|
    decreases |actors|
  {
    if actors != [] {
      SplitCountsEveryActor(actors[..|actors| - 1]);
    }
  }

  /** The four groups are pairwise disjoint, and every tagged actor is in its group. */
  lemma SplitIsPartition(actors: seq<Actor>, a: Actor)
    ensures var g := Split(actors);
      (a in g.vehicles ==> a !in g.trafficLights && a !in g.speedLimits && a !in g.walkers) &&
      (a in g.trafficLights ==> a !in g.speedLimits && a !in g.walkers) &&
      (a in g.speedLimits ==> a !in g.walkers)
    ensures var g := Split(actors);
      a in actors && Classify(a.typeId).Some? ==>
        a in g.vehicles || a in g.trafficLights || a in g.speedLimits || a in g.walkers
  {
    SelectMember(actors, Some(Vehicle), a);
    SelectMember(actors, Some(TrafficLight), a);
    SelectMember(actors, Some(SpeedLimit), a);
    SelectMember(actors, Some(Walker), a);
  }
}

=== FILE: basics.dfy ===
/**
 * Value types shared by the visualiser's components: an optional value, world
 * points, screen pixels, real-valued screen offsets, and Python's `int()`
 * conversion of a float (truncation toward zero).
 */
module Basics {

  /** A value that may be missing (Python's `None`). */
  datatype Option<+T> = None | Some(value: T)

  /** A point or a size in world space (metres). */
  datatype Point = Point(x: real, y: real)

  /** An integer pixel position or pixel size on a surface. */
  datatype Pixel = Pixel(x: int, y: int)

  /** A screen-space translation that may be fractional (the result of `/`). */
  datatype Offset = Offset(x: real, y: real)

  /**
   * Python's `int(v)` on a float: the integer part of `v`, rounding toward zero.
   * It differs from `v.Floor` for negative non-integral values.
   */
  function Trunc(v: real): (r: int)
    ensures 0.0 <= v ==> 0 <= r && r as real <= v < r as real + 1.0
    ensures v < 0.0 ==> r <= 0 && r as real - 1.0 < v <= r as real
  {
    if 0.0 <= v then v.Floor else -((-v).Floor)
  }

  /** Truncation is odd: `int(-v) == -int(v)`. */
  lemma TruncNegate(v: real)
    ensures Trunc(-v) == -Trunc(v)
  {
  }

  /** Truncation is monotone. */
  lemma TruncMonotone(u: real, v: real)
    requires u <= v
    ensures Trunc(u) <= Trunc(v)
  {
  }

  /** Truncating an integral value gives that integer back. */
  lemma TruncOfInt(n: int)
    ensures Trunc(n as real) == n
  {
  }
}

=== FILE: bounding_box.dfy ===
/**
 * The map bounding box (`ModuleWorld._compute_map_bounding_box`): a min/max
 * fold over the waypoint locations. The minima start at +infinity, the maxima
 * start at 0 (not at -infinity), so a maximum is never below 0.
 */
module BoundingBox {
  import opened Basics

  /** A sampled point along the road network; only its location is used here. */
  datatype Waypoint = Waypoint(location: Point)

  /** A running minimum that starts at `float('inf')`. */
  datatype MinBound = Infinity | Finite(value: real)

  /** The `(x_min, y_min, x_max, y_max)` tuple the fold returns. */
  datatype MapBounds = MapBounds(xMin: MinBound, yMin: MinBound, xMax: real, yMax: real)

  /** Python's `min(b, v)` where `b` may still be `inf`. */
  function MinWith(b: MinBound, v: real): (r: MinBound)
    ensures r.Finite? && r.value <= v
    ensures b.Finite? ==> r.value <= b.value
    ensures r.value == v || (b.Finite? && r.value == b.value)
  {
    match b
    case Infinity => Finite(v)
    case Finite(m) => Finite(if v < m then v else m)
  }

  /** Python's `max(m, v)`. */
  function MaxWith(m: real, v: real): (r: real)
    ensures m <= r && v <= r
    ensures r == m || r == v
  {
    if m < v then v else m
  }

  /**
   * Folds the waypoints into their bounding box. Every waypoint lies inside
   * it; each minimum is attained by some waypoint and is infinite exactly when
   * there are none; each maximum is attained by some waypoint unless it is the
   * seed 0, and it is never below 0.
   */
  method ComputeMapBoundingBox(waypoints: seq<Waypoint>) returns (b: MapBounds)
    ensures 0.0 <= b.xMax && 0.0 <= b.yMax
    ensures forall i :: 0 <= i < |waypoints| ==>
      waypoints[i].location.x <= b.xMax && waypoints[i].location.y <= b.yMax
    ensures b.xMax == 0.0 || exists i :: 0 <= i < |waypoints| && waypoints[i].location.x == b.xMax
    ensures b.yMax == 0.0 || exists i :: 0 <= i < |waypoints| && waypoints[i].location.y == b.yMax
    ensures b.xMin.Infinity? <==> |waypoints| == 0
    ensures b.yMin.Infinity? <==> |waypoints| == 0
    ensures b.xMin.Finite? ==>
      (forall i :: 0 <= i < |waypoints| ==> b.xMin.value <= waypoints[i].location.x) &&
      (exists i :: 0 <= i < |waypoints| && waypoints[i].location.x == b.xMin.value)
    ensures b.yMin.Finite? ==>
      (forall i :: 0 <= i < |waypoints| ==> b.yMin.value <= waypoints[i].location.y) &&
      (exists i :: 0 <= i < |waypoints| && waypoints[i].location.y == b.yMin.value)
  {
    var xMin, yMin := Infinity, Infinity;
    var xMax, yMax := 0.0, 0.0;
    for k := 0 to |waypoints|
      invariant 0.0 <= xMax && 0.0 <= yMax
      invariant forall i :: 0 <= i < k ==>
        waypoints[i].location.x <= xMax && waypoints[i].location.y <= yMax
      invariant xMax == 0.0 || exists i :: 0 <= i < k && waypoints[i].location.x == xMax
      invariant yMax == 0.0 || exists i :: 0 <= i < k && waypoints[i].location.y == yMax
      invariant xMin.Infinity? <==> k == 0
      invariant yMin.Infinity? <==> k == 0
      invariant xMin.Finite? ==>
        (forall i :: 0 <= i < k ==> xMin.value <= waypoints[i].location.x) &&
        (exists i :: 0 <= i < k && waypoints[i].location.x == xMin.value)
      invariant yMin.Finite? ==>
        (forall i :: 0 <= i < k ==> yMin.value <= waypoints[i].location.y) &&
        (exists i :: 0 <= i < k && waypoints[i].location.y == yMin.value)
    {
      var p := waypoints[k].location;
      xMax := MaxWith(xMax, p.x);
      xMin := MinWith(xMin, p.x);
      yMax := MaxWith(yMax, p.y);
      yMin := MinWith(yMin, p.y);
    }
    b := MapBounds(xMin, yMin, xMax, yMax);
  }
}

=== FILE: hero_mode.dfy ===
/**
 * Hero mode in `ModuleWorld.render`: with a hero selected, vehicles, traffic
 * lights and speed limits farther than `filter_radius` from the hero are not
 * drawn (walkers always are), and the layers are translated so that the hero
 * sits at the centre of the display. Without a hero the translation is the
 * horizontally centred canvas plus the mouse pan.
 */
module HeroMode {
  import opened Basics
  import opened Actors
  import opened Transform

  /** `filter_radius`, set once in `ModuleWorld.start`. */
  const FilterRadius: real := 50.0

  /** The squared Euclidean distance between two actors in the ground plane. */
  function SquaredDistance(a: Actor, b: Actor): (d: real)
    ensures 0.0 <= d
  {
    var dx := a.location.x - b.location.x;
    var dy := a.location.y - b.location.y;
    dx * dx + dy * dy
  }

  /**
   * `is_actor_inside_hero_radius`: `sqrt(d²) <= radius`, stated without the
   * square root (no distance is at most a negative radius).
   */
  predicate InsideHeroRadius(actor: Actor, hero: Actor, radius: real)
    ensures InsideHeroRadius(actor, hero, radius) ==> 0.0 <= radius
    ensures actor.location == hero.location ==> (InsideHeroRadius(actor, hero, radius) <==> 0.0 <= radius)
  {
    0.0 <= radius && SquaredDistance(actor, hero) <= radius * radius
  }

  /**
   * The squared test agrees with the source's `sqrt` test: for the distance
   * `d` (the non-negative root of the squared distance), the actor is inside
   * exactly when `d <= radius`, so the boundary is included.
   */
  lemma InsideHeroRadiusIsDistanceTest(actor: Actor, hero: Actor, radius: real, d: real)
    requires 0.0 <= d && d * d == SquaredDistance(actor, hero)
    ensures InsideHeroRadius(actor, hero, radius) <==> d <= radius
  {
    if 0.0 <= radius {
      if d <= radius {
        SquareMonotone(d, radius);
      } else {
        SquareStrictlyMonotone(radius, d);
      }
    }
  }

  /** Squaring is monotone on non-negative reals. */
  lemma SquareMonotone(a: real, b: real)
    requires 0.0 <= a <= b
    ensures a * a <= b * b
  {
    var aa, ab, bb := a * a, a * b, b * b;
    assert aa <= ab;
    assert ab <= bb;
  }

  /** Squaring is strictly monotone on non-negative reals. */
  lemma SquareStrictlyMonotone(a: real, b: real)
    requires 0.0 <= a < b
    ensures a * a < b * b
  {
    var aa, ab, bb := a * a, a * b, b * b;
    assert aa <= ab;
    assert ab < bb;
  }

  /** The list comprehension keeping the actors inside the hero radius, in order. */
  function CullToHero(actors: seq<Actor>, hero: Actor, radius: real): (r: seq<Actor>)
    ensures |r| <= |actors|
    ensures forall a :: a in r ==> a in actors && InsideHeroRadius(a, hero, radius)
  {
    if actors == [] then []
    else
      var last := actors[|actors| - 1];
      CullToHero(actors[..|actors| - 1], hero, radius)
        + (if InsideHeroRadius(last, hero, radius) then [last] else [])
  }

  /** An actor survives culling exactly when it is in the list and inside the radius. */
  lemma {:induction false} CullToHeroMember(actors: seq<Actor>, hero: Actor, radius: real, a: Actor)
    ensures a in CullToHero(actors, hero, radius) <==> a in actors && InsideHeroRadius(a, hero, radius)
    decreases |actors|
  {
    if actors != [] {
      var init := actors[..|actors| - 1];
      CullToHeroMember(init, hero, radius, a);
      assert actors == init + [actors[|actors| - 1]];
    }
  }

  /** The groups drawn this frame: the partition, culled around the hero if there is one. */
  function VisibleGroups(actors: seq<Actor>, hero: Option<Actor>): (r: ActorGroups)
    ensures var g := Split(actors);
      |r.vehicles| <= |g.vehicles| && |r.trafficLights| <= |g.trafficLights| && |r.speedLimits| <= |g.speedLimits|
    ensures hero.None? ==> r == Split(actors)
  {
    var g := Split(actors);
    match hero
    case None => g
    case Some(h) =>
      ActorGroups(CullToHero(g.vehicles, h, FilterRadius), CullToHero(g.trafficLights, h, FilterRadius),
                  CullToHero(g.speedLimits, h, FilterRadius), g.walkers)
  }

  /** Whether an actor passes the hero filter (always, when there is no hero). */
  predicate NearHero(a: Actor, hero: Option<Actor>)
  {
    hero.None? || InsideHeroRadius(a, hero.value, FilterRadius)
  }

  /**
   * Vehicles, traffic lights and speed limits are drawn exactly when they are
   * of that category and near the hero; walkers are never filtered.
   */
  lemma {:induction false} VisibleGroupsMember(actors: seq<Actor>, hero: Option<Actor>, a: Actor)
    ensures var v := VisibleGroups(actors, hero);
      && (a in v.vehicles <==> a in actors && Classify(a.typeId) == Some(Vehicle) && NearHero(a, hero))
      && (a in v.trafficLights <==> a in actors && Classify(a.typeId) == Some(TrafficLight) && NearHero(a, hero))
      && (a in v.speedLimits <==> a in actors && Classify(a.typeId) == Some(SpeedLimit) && NearHero(a, hero))
      && v.walkers == Select(actors, Some(Walker))
  {
    var g := Split(actors);
    SelectMember(actors, Some(Vehicle), a);
    SelectMember(actors, Some(TrafficLight), a);
    SelectMember(actors, Some(SpeedLimit), a);
    if hero.Some? {
      CullToHeroMember(g.vehicles, hero.value, FilterRadius, a);
      CullToHeroMember(g.trafficLights, hero.value, FilterRadius, a);
      CullToHeroMember(g.speedLimits, hero.value, FilterRadius, a);
    }
  }

  /** The candidates of `select_random_hero`: actors whose `type_id` contains "vehicle". */
  function HeroCandidates(actors: seq<Actor>): (r: seq<Actor>)
    ensures forall a :: a in r ==> a in actors && Contains(a.typeId, "vehicle")
  {
    if actors == [] then []
    else
      var last := actors[|actors| - 1];
      HeroCandidates(actors[..|actors| - 1]) + (if Contains(last.typeId, "vehicle") then [last] else [])
  }

  /** The hero candidates are exactly the vehicle group of the classifier, in order. */
  lemma {:induction false} HeroCandidatesAreVehicles(actors: seq<Actor>)
    ensures HeroCandidates(actors) == Select(actors, Some(Vehicle))
    decreases |actors|
  {
    if actors != [] {
      HeroCandidatesAreVehicles(actors[..|actors| - 1]);
    }
  }

  /**
   * A hero picked by `select_random_hero` is among the vehicles drawn in hero
   * mode, so looking it up among them by id always finds it.
   */
  lemma HeroIsAlwaysDrawn(actors: seq<Actor>, hero: Actor)
    requires hero in HeroCandidates(actors)
    ensures hero in VisibleGroups(actors, Some(hero)).vehicles
    ensures exists v :: v in VisibleGroups(actors, Some(hero)).vehicles && v.id == hero.id
  {
    HeroCandidatesAreVehicles(actors);
    SelectMember(actors, Some(Vehicle), hero);
    VisibleGroupsMember(actors, Some(hero), hero);
  }

  /**
   * The translation applied to every world layer. Without a hero: the canvas
   * centred horizontally, plus the mouse pan. With a hero: the display centre
   * minus the hero's screen point; None when that conversion divides by zero.
   */
  function TranslationOffset(t: TransformHelper, hero: Option<Actor>, displayWidth: int, displayHeight: int,
                             surfaceSize: int, mouseOffset: Offset): (r: Option<Offset>)
    ensures r.None? <==> hero.Some? && Degenerate(t)
  {
    match hero
    case None =>
      Some(Offset((displayWidth - surfaceSize) as real / 2.0 + mouseOffset.x, mouseOffset.y))
    case Some(h) =>
      match ToScreenPoint(t, h.location)
      case None => None
      case Some(p) =>
        Some(Offset(-(p.x as real) + displayWidth as real / 2.0, -(p.y as real) + displayHeight as real / 2.0))
  }

  /** Follow mode: translating the hero's screen point lands exactly on the display centre. */
  lemma FollowModeCentresHero(t: TransformHelper, hero: Actor, displayWidth: int, displayHeight: int,
                              surfaceSize: int, mouseOffset: Offset)
    requires !Degenerate(t)
    ensures var o := TranslationOffset(t, Some(hero), displayWidth, displayHeight, surfaceSize, mouseOffset);
      var p := ToScreenPoint(t, hero.location);
      o.Some? && p.Some? &&
      o.value.x + p.value.x as real == displayWidth as real / 2.0 &&
      o.value.y + p.value.y as real == displayHeight as real / 2.0
  {
  }

  /** Follow mode ignores the mouse pan entirely. */
  lemma FollowModeIgnoresPan(t: TransformHelper, hero: Actor, displayWidth: int, displayHeight: int,
                             surfaceSize: int, pan1: Offset, pan2: Offset)
    ensures TranslationOffset(t, Some(hero), displayWidth, displayHeight, surfaceSize, pan1)
         == TranslationOffset(t, Some(hero), displayWidth, displayHeight, surfaceSize, pan2)
  {
  }

  /**
   * Free mode: with no pan the canvas is centred horizontally and aligned to
   * the top, and panning shifts the offset by exactly the pan.
   */
  lemma FreeModeIsCentredCanvasPlusPan(t: TransformHelper, displayWidth: int, displayHeight: int,
                                       surfaceSize: int, pan: Offset)
    ensures var o := TranslationOffset(t, None, displayWidth, displayHeight, surfaceSize, pan).value;
      var o0 := TranslationOffset(t, None, displayWidth, displayHeight, surfaceSize, Offset(0.0, 0.0)).value;
      && o0.x + surfaceSize as real / 2.0 == displayWidth as real / 2.0
      && o0.y == 0.0
      && o.x == o0.x + pan.x && o.y == o0.y + pan.y
  {
  }
}

=== FILE: hud.dfy ===
/**
 * The HUD's info table (`ModuleHUD._info_text`, updated by `add_info`): a
 * dictionary from module name to that module's latest lines. A dictionary
 * (Python 3.7+) keeps the order in which keys were first inserted, and the
 * HUD draws the entries in that order, so the table is modelled as an
 * association list.
 */
module Hud {
  import opened Basics

  /** One entry of the table: a module's name and the lines it last submitted. */
  datatype InfoEntry = InfoEntry(moduleName: string, lines: seq<string>)

  /** The keys of the table, in insertion order. */
  function Keys(table: seq<InfoEntry>): (ks: seq<string>)
    ensures |ks| == |table|
    ensures forall i :: 0 <= i < |table| ==> ks[i] == table[i].moduleName
  {
    if table == [] then [] else [table[0].moduleName] + Keys(table[1..])
  }

  /** No key occurs twice. */
  predicate UniqueKeys(table: seq<InfoEntry>)
  {
    forall i, j :: 0 <= i < j < |table| ==> table[i].moduleName != table[j].moduleName
  }

  /** `table[name]`, or None when the key is absent. */
  function Get(table: seq<InfoEntry>, name: string): (r: Option<seq<string>>)
    ensures r.None? <==> name !in Keys(table)
    ensures r.Some? ==> InfoEntry(name, r.value) in table
  {
    if table == [] then None
    else if table[0].moduleName == name then Some(table[0].lines)
    else Get(table[1..], name)
  }

  /** `table[name] = lines`: overwrite in place if present, append otherwise. */
  function Put(table: seq<InfoEntry>, name: string, lines: seq<string>): (r: seq<InfoEntry>)
    ensures InfoEntry(name, lines) in r
    ensures |table| <= |r| <= |table| + 1
  {
    if table == [] then [InfoEntry(name, lines)]
    else if table[0].moduleName == name then [InfoEntry(name, lines)] + table[1..]
    else [table[0]] + Put(table[1..], name, lines)
  }

  /** After `table[name] = lines`, reading `name` gives `lines`. */
  lemma {:induction false} GetPutSame(table: seq<InfoEntry>, name: string, lines: seq<string>)
    ensures Get(Put(table, name, lines), name) == Some(lines)
  {
    if table != [] && table[0].moduleName != name {
      GetPutSame(table[1..], name, lines);
    }
  }

  /** Writing `name` leaves every other key's entry as it was. */
  lemma {:induction false} GetPutOther(table: seq<InfoEntry>, name: string, lines: seq<string>, other: string)
    requires other != name
    ensures Get(Put(table, name, lines), other) == Get(table, other)
  {
    if table != [] && table[0].moduleName != name {
      GetPutOther(table[1..], name, lines, other);
    }
  }

  /**
   * Overwriting keeps a key in its original position; a new key goes at the
   * end; so the HUD keeps drawing modules in the order they first reported.
   */
  lemma {:induction false} KeysAfterPut(table: seq<InfoEntry>, name: string, lines: seq<string>)
    ensures Keys(Put(table, name, lines)) == if name in Keys(table) then Keys(table) else Keys(table) + [name]
  {
    if table != [] {
      KeysAfterPut(table[1..], name, lines);
      assert Keys(table) == [table[0].moduleName] + Keys(table[1..]);
    }
  }

  /** Writing never creates a duplicate key. */
  lemma {:induction false} PutKeepsKeysUnique(table: seq<InfoEntry>, name: string, lines: seq<string>)
    requires UniqueKeys(table)
    ensures UniqueKeys(Put(table, name, lines))
  {
    KeysAfterPut(table, name, lines);
    var r := Put(table, name, lines);
    var ks := Keys(table);
    forall i, j | 0 <= i < j < |r| ensures r[i].moduleName != r[j].moduleName {
      assert Keys(r)[i] == r[i].moduleName && Keys(r)[j] == r[j].moduleName;
      if name !in ks && j == |ks| {
        assert Keys(r)[i] == ks[i];
      }
    }
  }

  class ModuleHud {
    const name: string
    /** `dim`: (width, height) of the display. */
    const dim: Pixel
    var showInfo: bool
    var infoText: seq<InfoEntry>

    /** `ModuleHUD.__init__` with `_init_data_params` (fonts and legend left out). */
    constructor (name: string, width: int, height: int)
      ensures this.name == name && dim == Pixel(width, height)
      ensures showInfo && infoText == []
      ensures Valid()
    {
      this.name := name;
      dim := Pixel(width, height);
      showInfo := true;
      infoText := [];
    }

    /** Keys of the info table are unique. */
    ghost predicate Valid()
      reads this
    {
      UniqueKeys(infoText)
    }

    /** `add_info`: the module's latest lines replace its previous ones. */
    method AddInfo(moduleName: string, info: seq<string>)
      requires Valid()
      modifies this
      ensures Valid()
      ensures infoText == Put(old(infoText), moduleName, info)
      ensures Get(infoText, moduleName) == Some(info)
      ensures forall other :: other != moduleName ==> Get(infoText, other) == Get(old(infoText), other)
      ensures showInfo == old(showInfo)
    {
      PutKeepsKeysUnique(infoText, moduleName, info);
      GetPutSame(infoText, moduleName, info);
      forall other | other != moduleName
        ensures Get(Put(infoText, moduleName, info), other) == Get(infoText, other)
      {
        GetPutOther(infoText, moduleName, info, other);
      }
      infoText := Put(infoText, moduleName, info);
    }
  }
}

=== FILE: input.dfy ===
/**
 * Camera input (`ModuleInput`): the mouse wheel changes the stored zoom
 * factor (`wheel_offset`, which nothing reads: the scaling that used it is
 * commented out) in steps of `wheel_amount`, with a floor of 0.1 after a
 * scroll-down; a left-button drag accumulates pointer deltas into the pan
 * offset; and some keys ask other modules to toggle state. The event queue
 * and the pointer are parameters.
 */
module Input {
  import opened Basics

  /** `wheel_amount`. */
  const WheelAmount: real := 0.1
  /** The zoom floor applied after a scroll-down. */
  const MinZoom: real := 0.1

  /** The keys the event loop reacts to. */
  datatype Key = Escape | KeyA | KeyH | KeyI | OtherKey

  /**
   * An input event. A button press carries the pointer position read while
   * the event is handled (`pygame.mouse.get_pos()`).
   */
  datatype Event = Quit | KeyUp(key: Key) | MouseButtonDown(button: int, pointer: Pixel) | OtherEvent

  /** What an event asks of the rest of the program. */
  datatype Request = ExitGame | ToggleAntialiasing | ToggleHeroMode | ToggleInfo

  /** The fields of `ModuleInput` that events and the mouse change. */
  datatype InputState = InputState(mousePos: Pixel, mouseOffset: Offset, wheelOffset: Offset)

  /** The state `ModuleInput.__init__` sets up. */
  const InitialState := InputState(Pixel(0, 0), Offset(0.0, 0.0), Offset(1.0, 1.0))

  /** One zoom component after a scroll-up (button 4). */
  function ScrollUp(w: real): (r: real)
    ensures w < r
  {
    w + WheelAmount
  }

  /**
   * One zoom component after a scroll-down (button 5): one step down, or the
   * floor when that step reaches it; so the result is `max(w - 0.1, 0.1)`.
   */
  function ScrollDown(w: real): (r: real)
    ensures MinZoom <= r
    ensures r >= w - WheelAmount && (r == MinZoom || r == w - WheelAmount)
  {
    var d := w - WheelAmount;
    if d <= MinZoom then MinZoom else d
  }

  /** A scroll-down undoes a scroll-up from any zoom at or above the floor. */
  lemma ScrollDownUndoesScrollUp(w: real)
    requires MinZoom <= w
    ensures ScrollDown(ScrollUp(w)) == w
  {
  }

  /** A scroll-up undoes a scroll-down exactly when the floor did not cut in. */
  lemma ScrollUpUndoesScrollDown(w: real)
    ensures ScrollUp(ScrollDown(w)) == w <==> MinZoom + WheelAmount <= w
  {
  }

  /**
   * The state change of one event of `_parse_events`: only a button press
   * changes anything; it moves `mouse_pos` to the pointer, and only buttons 4
   * and 5 touch the zoom.
   */
  function ApplyEvent(s: InputState, e: Event): (r: InputState)
    ensures r.mouseOffset == s.mouseOffset
    ensures ZoomValid(s) ==> ZoomValid(r)
    ensures !e.MouseButtonDown? ==> r == s
    ensures e.MouseButtonDown? ==> r.mousePos == e.pointer
    ensures e.MouseButtonDown? && e.button != 4 && e.button != 5 ==> r.wheelOffset == s.wheelOffset
    ensures e.MouseButtonDown? && e.button == 5 ==>
      r.wheelOffset == Offset(ScrollDown(s.wheelOffset.x), ScrollDown(s.wheelOffset.y))
  {
    match e
    case MouseButtonDown(button, pointer) =>
      var w := s.wheelOffset;
      var w' :=
        if button == 4 then Offset(ScrollUp(w.x), ScrollUp(w.y))
        else if button == 5 then Offset(ScrollDown(w.x), ScrollDown(w.y))
        else w;
      s.(mousePos := pointer, wheelOffset := w')
    case _ => s
  }

  /** The request an event makes of other modules, if any. */
  function EventRequest(e: Event): (r: Option<Request>)
    ensures r == Some(ExitGame) <==> e == Quit || e == KeyUp(Escape)
    ensures e.MouseButtonDown? || e == OtherEvent ==> r.None?
  {
    match e
    case Quit => Some(ExitGame)
    case KeyUp(Escape) => Some(ExitGame)
    case KeyUp(KeyA) => Some(ToggleAntialiasing)
    case KeyUp(KeyH) => Some(ToggleHeroMode)
    case KeyUp(KeyI) => Some(ToggleInfo)
    case _ => None
  }

  /**
   * The state after handling the queue; handling stops at the first exit
   * (`sys.exit`). Events never pan the view.
   */
  function ApplyEvents(s: InputState, events: seq<Event>): (r: InputState)
    ensures r.mouseOffset == s.mouseOffset
    decreases |events|
  {
    if events == [] || EventRequest(events[0]) == Some(ExitGame) then s
    else ApplyEvents(ApplyEvent(s, events[0]), events[1..])
  }

  /**
   * The requests made while handling the queue, up to and including the first
   * exit: an exit request can only be the last one.
   */
  function Requests(events: seq<Event>): (r: seq<Request>)
    ensures |r| <= |events|
    ensures forall i :: 0 <= i < |r| - 1 ==> r[i] != ExitGame
  {
    if events == [] then []
    else
      match EventRequest(events[0])
      case Some(ExitGame) => [ExitGame]
      case Some(r) => [r] + Requests(events[1..])
      case None => Requests(events[1..])
  }

  /**
   * The queue yields the exit request exactly when it holds a quit event or
   * an Escape key-up (both reach `exit_game()`).
   */
  lemma {:induction false} RequestsExitIff(events: seq<Event>)
    ensures ExitGame in Requests(events) <==>
      exists i :: 0 <= i < |events| && (events[i] == Quit || events[i] == KeyUp(Escape))
  {
    if events != [] && EventRequest(events[0]) != Some(ExitGame) {
      RequestsExitIff(events[1..]);
      if ExitGame in Requests(events[1..]) {
        var i :| 0 <= i < |events[1..]| && (events[1..][i] == Quit || events[1..][i] == KeyUp(Escape));
        assert events[i + 1] == events[1..][i];
      }
      if i :| 0 <= i < |events| && (events[i] == Quit || events[i] == KeyUp(Escape)) {
        assert i > 0;
        assert events[1..][i - 1] == events[i];
      }
    }
  }

  /** `_parse_mouse`: while the left button is held, pan by the pointer's movement. */
  function Drag(s: InputState, leftPressed: bool, pointer: Pixel): (r: InputState)
    ensures r.wheelOffset == s.wheelOffset
    ensures !leftPressed ==> r == s
  {
    if leftPressed then
      s.(mouseOffset := Offset(s.mouseOffset.x + pointer.x as real - s.mousePos.x as real,
                               s.mouseOffset.y + (pointer.y - s.mousePos.y) as real),
         mousePos := pointer)
    else s
  }

  /** Consecutive frames of a held left button at the given pointer positions. */
  function DragFrames(s: InputState, pointers: seq<Pixel>): InputState
    decreases |pointers|
  {
    if pointers == [] then s else DragFrames(Drag(s, true, pointers[0]), pointers[1..])
  }

  /**
   * A drag pans by exactly the total pointer movement: the sum of the
   * per-frame deltas telescopes to the last position minus the first.
   */
  lemma {:induction false} DragPansByTotalMovement(s: InputState, pointers: seq<Pixel>)
    requires pointers != []
    ensures var r := DragFrames(s, pointers);
      var last := pointers[|pointers| - 1];
      && r.mousePos == last
      && r.mouseOffset.x == s.mouseOffset.x + (last.x - s.mousePos.x) as real
      && r.mouseOffset.y == s.mouseOffset.y + (last.y - s.mousePos.y) as real
      && r.wheelOffset == s.wheelOffset
    decreases |pointers|
  {
    var s' := Drag(s, true, pointers[0]);
    if |pointers| > 1 {
      DragPansByTotalMovement(s', pointers[1..]);
    }
  }

  /** Both zoom components are equal and at or above the floor. */
  predicate ZoomValid(s: InputState)
  {
    MinZoom <= s.wheelOffset.x && s.wheelOffset.x == s.wheelOffset.y
  }

  /**
   * No sequence of events takes the zoom below the floor or makes its two
   * components differ.
   */
  lemma {:induction false} ApplyEventsKeepsZoomValid(s: InputState, events: seq<Event>)
    requires ZoomValid(s)
    ensures ZoomValid(ApplyEvents(s, events))
    decreases |events|
  {
    if events != [] && EventRequest(events[0]) != Some(ExitGame) {
      ApplyEventsKeepsZoomValid(ApplyEvent(s, events[0]), events[1..]);
    }
  }

  /** After a scroll-down, both zoom components are at least the floor, from any state. */
  lemma ScrollDownEventFloors(s: InputState, pointer: Pixel)
    ensures var w := ApplyEvent(s, MouseButtonDown(5, pointer)).wheelOffset;
      MinZoom <= w.x && MinZoom <= w.y
  {
  }

  /** A scroll-up adds exactly `wheel_amount` to both components. */
  lemma ScrollUpEventAddsWheelAmount(s: InputState, pointer: Pixel)
    ensures var w := ApplyEvent(s, MouseButtonDown(4, pointer)).wheelOffset;
      w.x == s.wheelOffset.x + WheelAmount && w.y == s.wheelOffset.y + WheelAmount
  {
  }

  class ModuleInput {
    const name: string
    var mousePos: Pixel
    var mouseOffset: Offset
    var wheelOffset: Offset

    /** The fields as one value. */
    function State(): InputState
      reads this
    {
      InputState(mousePos, mouseOffset, wheelOffset)
    }

    /** The zoom is at or above its floor, equal on both axes. */
    ghost predicate Valid()
      reads this
    {
      ZoomValid(State())
    }

    constructor (name: string)
      ensures this.name == name && State() == InitialState && Valid()
    {
      this.name := name;
      mousePos := Pixel(0, 0);
      mouseOffset := Offset(0.0, 0.0);
      wheelOffset := Offset(1.0, 1.0);
    }

    /** The body of the `_parse_events` loop for one event. */
    method HandleEvent(e: Event) returns (request: Option<Request>)
      modifies this
      ensures State() == ApplyEvent(old(State()), e)
      ensures request == EventRequest(e)
    {
      request := None;
      match e {
        case Quit =>
          request := Some(ExitGame);
        case KeyUp(key) =>
          if key == Escape {
            request := Some(ExitGame);
          }
          if key == KeyA {
            request := Some(ToggleAntialiasing);
          }
          if key == KeyH {
            request := Some(ToggleHeroMode);
          }
          if key == KeyI {
            request := Some(ToggleInfo);
          }
        case MouseButtonDown(button, pointer) =>
          mousePos := pointer;
          if button == 4 {
            wheelOffset := Offset(wheelOffset.x + WheelAmount, wheelOffset.y + WheelAmount);
          }
          if button == 5 {
            wheelOffset := Offset(wheelOffset.x - WheelAmount, wheelOffset.y - WheelAmount);
            if wheelOffset.x <= MinZoom {
              wheelOffset := wheelOffset.(x := MinZoom);
            }
            if wheelOffset.y <= MinZoom {
              wheelOffset := wheelOffset.(y := MinZoom);
            }
          }
        case OtherEvent =>
      }
    }

    /** `_parse_events`: handles the queue in order until an exit request. */
    method ParseEvents(events: seq<Event>) returns (requests: seq<Request>)
      requires Valid()
      modifies this
      ensures Valid()
      ensures State() == ApplyEvents(old(State()), events)
      ensures requests == Requests(events)
    {
      ApplyEventsKeepsZoomValid(State(), events);
      requests := [];
      var i := 0;
      while i < |events|
        invariant 0 <= i <= |events|
        invariant ApplyEvents(State(), events[i..]) == ApplyEvents(old(State()), events)
        invariant requests + Requests(events[i..]) == Requests(events)
      {
        var e, rest := events[i], events[i + 1..];
        assert events[i..] == [e] + rest;
        ghost var before := State();
        var request := HandleEvent(e);
        if request == Some(ExitGame) {
          assert Requests(events[i..]) == [ExitGame];
          requests := requests + [ExitGame];
          return;
        }
        assert ApplyEvents(before, events[i..]) == ApplyEvents(State(), rest);
        if request.Some? {
          assert Requests(events[i..]) == [request.value] + Requests(rest);
          requests := requests + [request.value];
        } else {
          assert Requests(events[i..]) == Requests(rest);
        }
        i := i + 1;
      }
    }

    /** `_parse_mouse`: with the left button held, pan by the pointer's movement. */
    method ParseMouse(leftPressed: bool, pointer: Pixel)
      modifies this
      ensures State() == Drag(old(State()), leftPressed, pointer)
    {
      if leftPressed {
        mouseOffset := Offset(mouseOffset.x + pointer.x as real - mousePos.x as real,
                              mouseOffset.y + (pointer.y - mousePos.y) as real);
        mousePos := pointer;
      }
    }

    /** `parse_input` (called by `tick`): events, then the mouse, unless an exit was requested. */
    method ParseInput(events: seq<Event>, leftPressed: bool, pointer: Pixel) returns (requests: seq<Request>)
      requires Valid()
      modifies this
      ensures Valid()
      ensures requests == Requests(events)
      ensures State() ==
        var s := ApplyEvents(old(State()), events);
        if ExitGame in requests then s else Drag(s, leftPressed, pointer)
    {
      requests := ParseEvents(events);
      if ExitGame !in requests {
        ParseMouse(leftPressed, pointer);
      }
    }
  }
}

=== FILE: module_manager.dfy ===
/**
 * The module registry (`ModuleManager`): an ordered list of named modules,
 * appended to at start-up, visited in registration order every frame, looked
 * up by name by sibling modules, and emptied on exit.
 */
module ModuleRegistry {
  import opened Basics

  /** The four kinds of module the visualiser registers. */
  datatype ModuleKind = InputModule | RenderModule | WorldModule | HudModule

  /** A registered module, identified by the `name` it was created with. */
  datatype Module = Module(name: string, kind: ModuleKind)

  /** The per-frame callbacks the manager dispatches to each module. */
  datatype Phase = Start | Tick | Render

  /** One observable step of a dispatch loop. */
  datatype Call = ClearDisplay | Invoke(phase: Phase, target: Module)

  /** The first module in `modules` named `name` (the loop of `get_module`). */
  function Lookup(modules: seq<Module>, name: string): (r: Option<Module>)
    ensures r.Some? ==> r.value in modules && r.value.name == name
  {
    if modules == [] then None
    else if modules[0].name == name then Some(modules[0])
    else Lookup(modules[1..], name)
  }

  /**
   * `Lookup` is first-match: it finds the module at the lowest index carrying
   * that name, and yields None exactly when no module carries it.
   */
  lemma {:induction false} LookupIsFirstMatch(modules: seq<Module>, name: string)
    ensures Lookup(modules, name).None? <==> forall i :: 0 <= i < |modules| ==> modules[i].name != name
    ensures Lookup(modules, name).Some? ==>
      exists i :: 0 <= i < |modules| && modules[i] == Lookup(modules, name).value && modules[i].name == name
        && forall j :: 0 <= j < i ==> modules[j].name != name
  {
    if modules != [] && modules[0].name != name {
      LookupIsFirstMatch(modules[1..], name);
      if Lookup(modules, name).Some? {
        var i :| 0 <= i < |modules[1..]| && modules[1..][i] == Lookup(modules, name).value
          && modules[1..][i].name == name && forall j :: 0 <= j < i ==> modules[1..][j].name != name;
        assert modules[i + 1] == Lookup(modules, name).value;
      }
    }
  }

  /**
   * Registering a module never changes what an existing name resolves to; a
   * name not yet registered then resolves to the new module.
   */
  lemma {:induction false} LookupAfterRegister(modules: seq<Module>, m: Module, name: string)
    ensures Lookup(modules + [m], name) ==
      if Lookup(modules, name).Some? then Lookup(modules, name)
      else if m.name == name then Some(m) else None
  {
    if modules != [] {
      assert (modules + [m])[1..] == modules[1..] + [m];
      LookupAfterRegister(modules[1..], m, name);
    }
  }

  class ModuleManager {
    /** The registered modules, in registration order. */
    var modules: seq<Module>

    constructor ()
      ensures modules == []
    {
      modules := [];
    }

    /** `register_module`: appends. */
    method RegisterModule(m: Module)
      modifies this
      ensures modules == old(modules) + [m]
    {
      modules := modules + [m];
    }

    /** `clear_modules`: empties the registry in place. */
    method ClearModules()
      modifies this
      ensures modules == []
    {
      modules := [];
    }

    /** `tick`: calls every module's tick, in registration order. */
    method TickModules() returns (calls: seq<Call>)
      ensures |calls| == |modules|
      ensures forall i :: 0 <= i < |modules| ==> calls[i] == Invoke(Tick, modules[i])
    {
      calls := [];
      for i := 0 to |modules|
        invariant |calls| == i
        invariant forall k :: 0 <= k < i ==> calls[k] == Invoke(Tick, modules[k])
      {
        calls := calls + [Invoke(Tick, modules[i])];
      }
    }

    /** `render`: clears the display, then calls every module's render in registration order. */
    method RenderModules() returns (calls: seq<Call>)
      ensures |calls| == |modules| + 1 && calls[0] == ClearDisplay
      ensures forall i :: 0 <= i < |modules| ==> calls[i + 1] == Invoke(Render, modules[i])
    {
      calls := [ClearDisplay];
      for i := 0 to |modules|
        invariant |calls| == i + 1 && calls[0] == ClearDisplay
        invariant forall k :: 0 <= k < i ==> calls[k + 1] == Invoke(Render, modules[k])
      {
        calls := calls + [Invoke(Render, modules[i])];
      }
    }

    /** `start_modules`: calls every module's start, in registration order. */
    method StartModules() returns (calls: seq<Call>)
      ensures |calls| == |modules|
      ensures forall i :: 0 <= i < |modules| ==> calls[i] == Invoke(Start, modules[i])
    {
      calls := [];
      for i := 0 to |modules|
        invariant |calls| == i
        invariant forall k :: 0 <= k < i ==> calls[k] == Invoke(Start, modules[k])
      {
        calls := calls + [Invoke(Start, modules[i])];
      }
    }

    /** `get_module`: the first registered module with that name, or None. */
    method GetModule(name: string) returns (r: Option<Module>)
      ensures r == Lookup(modules, name)
    {
      for i := 0 to |modules|
        invariant Lookup(modules[i..], name) == Lookup(modules, name)
      {
        if modules[i].name == name {
          return Some(modules[i]);
        }
        assert modules[i..][1..] == modules[i + 1..];
      }
      return None;
    }
  }
}

=== FILE: transform.dfy ===
/**
 * The world-to-screen transform (`TransformHelper`): a per-axis linear map of
 * the map bounding box onto a square canvas of `mapSize` pixels, truncated to
 * integer pixels. The transform is anisotropic when the box is not square.
 */
module Transform {
  import opened Basics

  /** The bounding box of the map and the side of the canvas it is drawn on. */
  datatype TransformHelper = TransformHelper(minMapPoint: Point, maxMapPoint: Point, mapSize: int)

  /** A zero-width axis: every conversion divides by zero on it. */
  predicate Degenerate(t: TransformHelper)
  {
    t.maxMapPoint.x == t.minMapPoint.x || t.maxMapPoint.y == t.minMapPoint.y
  }

  /** The box has positive extent on both axes. */
  predicate Proper(t: TransformHelper)
  {
    t.minMapPoint.x < t.maxMapPoint.x && t.minMapPoint.y < t.maxMapPoint.y
  }

  /** A world length `v` on an axis of extent `hi - lo`, scaled to `size` pixels. */
  function Scale(v: real, lo: real, hi: real, size: int): real
    requires lo != hi
  {
    v / (hi - lo) * size as real
  }

  /**
   * `convert_world_to_screen_point`: None when an axis is degenerate (the
   * source raises ZeroDivisionError there).
   */
  function ToScreenPoint(t: TransformHelper, p: Point): (r: Option<Pixel>)
    ensures r.None? <==> Degenerate(t)
  {
    if Degenerate(t) then None
    else
      Some(Pixel(Trunc(Scale(p.x - t.minMapPoint.x, t.minMapPoint.x, t.maxMapPoint.x, t.mapSize)),
                 Trunc(Scale(p.y - t.minMapPoint.y, t.minMapPoint.y, t.maxMapPoint.y, t.mapSize))))
  }

  /** `convert_world_to_screen_size`: the same scale with no translation term. */
  function ToScreenSize(t: TransformHelper, size: Point): (r: Option<Pixel>)
    ensures r.None? <==> Degenerate(t)
  {
    if Degenerate(t) then None
    else
      Some(Pixel(Trunc(Scale(size.x, t.minMapPoint.x, t.maxMapPoint.x, t.mapSize)),
                 Trunc(Scale(size.y, t.minMapPoint.y, t.maxMapPoint.y, t.mapSize))))
  }

  /**
   * The pixel size of a vehicle glyph (`Vehicle.__init__`): the bounding-box
   * extent doubled, converted as a size, and clamped to at least one pixel.
   */
  function VehicleSurfaceSize(t: TransformHelper, extent: Point): (r: Option<Pixel>)
    ensures r.None? <==> Degenerate(t)
    ensures r.Some? ==> 1 <= r.value.x && 1 <= r.value.y
    ensures r.Some? ==>
      var c := ToScreenSize(t, Point(extent.x * 2.0, extent.y * 2.0)).value;
      && (c.x >= 1 ==> r.value.x == c.x) && (c.y >= 1 ==> r.value.y == c.y)
      && (c.x < 1 ==> r.value.x == 1) && (c.y < 1 ==> r.value.y == 1)
  {
    match ToScreenSize(t, Point(extent.x * 2.0, extent.y * 2.0))
    case None => None
    case Some(c) => Some(Pixel(if c.x >= 1 then c.x else 1, if c.y >= 1 then c.y else 1))
  }

  /** A point is its offset from the box's minimum corner, converted as a size. */
  lemma PointIsTranslatedSize(t: TransformHelper, p: Point)
    ensures ToScreenPoint(t, p) == ToScreenSize(t, Point(p.x - t.minMapPoint.x, p.y - t.minMapPoint.y))
  {
  }

  /** The minimum corner of the box lands on the canvas origin. */
  lemma MinMapsToOrigin(t: TransformHelper)
    requires !Degenerate(t)
    ensures ToScreenPoint(t, t.minMapPoint) == Some(Pixel(0, 0))
  {
    assert Scale(0.0, t.minMapPoint.x, t.maxMapPoint.x, t.mapSize) == 0.0;
    assert Scale(0.0, t.minMapPoint.y, t.maxMapPoint.y, t.mapSize) == 0.0;
  }

  /** `v / v * size == size` for a non-zero extent `v`. */
  lemma FullExtent(lo: real, hi: real, size: int)
    requires lo != hi
    ensures Scale(hi - lo, lo, hi, size) == size as real
  {
    assert (hi - lo) / (hi - lo) == 1.0;
  }

  /** The maximum corner of the box lands on the far canvas corner. */
  lemma MaxMapsToCorner(t: TransformHelper)
    requires !Degenerate(t)
    ensures ToScreenPoint(t, t.maxMapPoint) == Some(Pixel(t.mapSize, t.mapSize))
  {
    var lo, hi := t.minMapPoint, t.maxMapPoint;
    FullExtent(lo.x, hi.x, t.mapSize);
    FullExtent(lo.y, hi.y, t.mapSize);
    TruncOfInt(t.mapSize);
    assert Trunc(Scale(hi.x - lo.x, lo.x, hi.x, t.mapSize)) == t.mapSize;
    assert Trunc(Scale(hi.y - lo.y, lo.y, hi.y, t.mapSize)) == t.mapSize;
  }

  /** A length between 0 and the extent scales into `[0, size]`. */
  lemma ScaleWithin(v: real, lo: real, hi: real, size: int)
    requires lo < hi && 0 <= size
    requires 0.0 <= v <= hi - lo
    ensures 0.0 <= Scale(v, lo, hi, size) <= size as real
  {
    var d := hi - lo;
    var f := v / d;
    assert f * d == v;
    assert 0.0 <= f;
    assert f <= 1.0;
    assert f * size as real <= 1.0 * size as real;
  }

  /** Every point inside the bounding box maps into the canvas `[0, mapSize]²`. */
  lemma InsideBoxMapsIntoCanvas(t: TransformHelper, p: Point)
    requires Proper(t) && 0 <= t.mapSize
    requires t.minMapPoint.x <= p.x <= t.maxMapPoint.x
    requires t.minMapPoint.y <= p.y <= t.maxMapPoint.y
    ensures ToScreenPoint(t, p).Some?
    ensures 0 <= ToScreenPoint(t, p).value.x <= t.mapSize
    ensures 0 <= ToScreenPoint(t, p).value.y <= t.mapSize
  {
    ScaleWithin(p.x - t.minMapPoint.x, t.minMapPoint.x, t.maxMapPoint.x, t.mapSize);
    ScaleWithin(p.y - t.minMapPoint.y, t.minMapPoint.y, t.maxMapPoint.y, t.mapSize);
    TruncOfInt(t.mapSize);
    TruncMonotone(Scale(p.x - t.minMapPoint.x, t.minMapPoint.x, t.maxMapPoint.x, t.mapSize), t.mapSize as real);
    TruncMonotone(Scale(p.y - t.minMapPoint.y, t.minMapPoint.y, t.maxMapPoint.y, t.mapSize), t.mapSize as real);
  }

  /** Scaling by a positive extent and a non-negative size keeps order. */
  lemma ScaleMonotone(u: real, v: real, lo: real, hi: real, size: int)
    requires lo < hi && 0 <= size && u <= v
    ensures Scale(u, lo, hi, size) <= Scale(v, lo, hi, size)
  {
    var d := hi - lo;
    assert u / d <= v / d by {
      assert (v / d - u / d) * d == v - u;
    }
    assert (v / d - u / d) * size as real >= 0.0;
  }

  /** The transform preserves the order of points along each axis. */
  lemma ToScreenPointMonotone(t: TransformHelper, p: Point, q: Point)
    requires Proper(t) && 0 <= t.mapSize
    requires p.x <= q.x && p.y <= q.y
    ensures ToScreenPoint(t, p).value.x <= ToScreenPoint(t, q).value.x
    ensures ToScreenPoint(t, p).value.y <= ToScreenPoint(t, q).value.y
  {
    ScaleMonotone(p.x - t.minMapPoint.x, q.x - t.minMapPoint.x, t.minMapPoint.x, t.maxMapPoint.x, t.mapSize);
    ScaleMonotone(p.y - t.minMapPoint.y, q.y - t.minMapPoint.y, t.minMapPoint.y, t.maxMapPoint.y, t.mapSize);
    TruncMonotone(Scale(p.x - t.minMapPoint.x, t.minMapPoint.x, t.maxMapPoint.x, t.mapSize),
                  Scale(q.x - t.minMapPoint.x, t.minMapPoint.x, t.maxMapPoint.x, t.mapSize));
    TruncMonotone(Scale(p.y - t.minMapPoint.y, t.minMapPoint.y, t.maxMapPoint.y, t.mapSize),
                  Scale(q.y - t.minMapPoint.y, t.minMapPoint.y, t.maxMapPoint.y, t.mapSize));
  }

  /** A zero size has no translation term to pick up: it converts to `(0, 0)`. */
  lemma ZeroSizeMapsToZero(t: TransformHelper)
    requires !Degenerate(t)
    ensures ToScreenSize(t, Point(0.0, 0.0)) == Some(Pixel(0, 0))
  {
  }

  /** Because `int()` truncates toward zero, negating a size negates its pixel size. */
  lemma ToScreenSizeOdd(t: TransformHelper, s: Point)
    requires !Degenerate(t)
    ensures ToScreenSize(t, Point(-s.x, -s.y)).value.x == -ToScreenSize(t, s).value.x
    ensures ToScreenSize(t, Point(-s.x, -s.y)).value.y == -ToScreenSize(t, s).value.y
  {
    var sx := Scale(s.x, t.minMapPoint.x, t.maxMapPoint.x, t.mapSize);
    var sy := Scale(s.y, t.minMapPoint.y, t.maxMapPoint.y, t.mapSize);
    assert Scale(-s.x, t.minMapPoint.x, t.maxMapPoint.x, t.mapSize) == -sx;
    assert Scale(-s.y, t.minMapPoint.y, t.maxMapPoint.y, t.mapSize) == -sy;
    TruncNegate(sx);
    TruncNegate(sy);
  }

  /** A zero-extent vehicle still gets a 1×1 glyph. */
  lemma ZeroExtentGlyphIsOnePixel(t: TransformHelper)
    requires !Degenerate(t)
    ensures VehicleSurfaceSize(t, Point(0.0, 0.0)) == Some(Pixel(1, 1))
  {
    ZeroSizeMapsToZero(t);
  }

  /** Box (0,0)–(1000,1000) on an 800-pixel canvas maps (500,500) to (400,400). */
  lemma CentreScenario()
    ensures ToScreenPoint(TransformHelper(Point(0.0, 0.0), Point(1000.0, 1000.0), 800), Point(500.0, 500.0))
            == Some(Pixel(400, 400))
  {
    var t := TransformHelper(Point(0.0, 0.0), Point(1000.0, 1000.0), 800);
    assert Scale(500.0, 0.0, 1000.0, 800) == 400.0;
  }
}
